=== FILE: README.md ===
# Retro dungeon: game rules in Dafny

This project models the rule logic of a small terminal dungeon crawler (`src/game.cpp`) and
proves properties of it. It covers:

- the tile grid (`Map`): construction, bounds and walkability queries, tile writes, clearing;
- the single-room dungeon generator (`DungeonGenerator::generate`);
- the entities: the enemy stat table, the player's heal, item pick-up and move;
- the game session (`Game`): the bounded message log, combat, enemy spawning, reaping of dead
  enemies, enemy lookup, level transitions, new games and the movement turn.

Everything is immutable data and pure functions. The map is a `seq<seq<Tile>>` indexed
`tiles[y][x]`. Modules follow the program's structure:

| module | file | contents |
|---|---|---|
| `Wrappers` | wrappers.dfy | `Option`, standing in for null pointers and "not found" |
| `Geometry` | geometry.dfy | `Position`, `Direction`, `Min`/`Max` |
| `Tiles` | tiles.dfy | tile kinds and the canonical (kind, symbol, walkable) table |
| `Maps` | maps.dfy | the grid and its operations |
| `Dungeon` | dungeon.dfy | the generator, as the two carving loops plus the staircase |
| `Entities` | entities.dfy | `Enemy`, `Player`, `Item` and their rules |
| `MessageLog` | messagelog.dfy | the FIFO message log and `std::to_string` |
| `Game` | game.dfy | the session state machine (the `Session` datatype) |

The header constants `MAP_WIDTH`, `MAP_HEIGHT`, `MAX_MESSAGES` and `INVALID_POSITION` are not
visible, so they are fields of a `Game.Config` parameter. `Game.ValidConfig` asks for both
map sides to be at least 3, because the spawn distributions draw from `[1, W-2]`.

Every random draw is a parameter, constrained to the range of the distribution it comes from:

- the staircase cell: `[n/4, n/4 + n/2 - 1]` on each axis (`Dungeon.StairsDraw`);
- enemy positions: `[1, W-2] x [1, H-2]`;
- the enemy type: an index in `[0, 6]` into the source's spawn-order array (`Game.SpawnKind`).
  In that array Rat and Spider come before Dragon.

Item spawn positions are drawn and then thrown away by the source, so they do not appear.

The entity helpers `takeDamage` and `isAlive` are declared in the game header, which is not
part of this model. Their bodies are therefore assumptions of the model, not facts about the
program:

- `takeDamage(n)` subtracts `max(0, n)` from health, with no floor at 0, so health may go
  negative (`Entities.TakeDamage`);
- an entity is alive while its health is positive (`Entities.Alive`).

The combat contracts state damage as a call of `TakeDamage`, so they keep their meaning if
the header's subtraction differs (for example, if it stops at 0).

## Model

| member | source | states |
|---|---|---|
| `Tiles.CanonicalTile` | src/game.cpp:87-94 | a write of kind `t` stores a tile of kind `t` that is walkable exactly when `t` is not Wall |
| `Tiles.SymbolsDistinct` | src/game.cpp:87-94 | the six canonical glyphs are pairwise distinct, so two kinds with the same glyph are the same kind |
| `Maps.NewMap` | src/game.cpp:64-66 | the constructor gives a valid `w` x `h` grid whose cells are all (Wall, '#', blocked), with `stairsDown` equal to the invalid marker |
| `Maps.GetTile` | src/game.cpp:68-74 | reads cell `(x, y)` as `tiles[y][x]`; its on-map requirement stands in for the unchecked `m_tiles[y][x]`; on a grid written through `setTile` the tile read is the canonical tile of its kind |
| `Maps.IsValidPosition` | src/game.cpp:76-78 | on a well-formed map, the bounds check accepts exactly the coordinates that index a cell of the grid |
| `Maps.IsWalkable` | src/game.cpp:80-83 | an off-map cell is never walkable; an on-map cell is walkable exactly when its tile's walkable flag is set |
| `Maps.WalkableIffNotWall` | src/game.cpp:80-83 | on a grid written through `setTile`, a cell is walkable iff it is on the map and is not a wall; off-map cells are never walkable |
| `Maps.SetTile` | src/game.cpp:85-95 | an on-map write stores the canonical tile and leaves every other cell, the dimensions and the staircase unchanged; an off-map write leaves the whole map unchanged; canonical grids stay canonical |
| `Maps.SetTileCommutes` | src/game.cpp:85-95 | writes to two different cells can be done in either order |
| `Maps.SetTileLastWins` | src/game.cpp:85-95 | a second write to a cell completely overrides the first |
| `Maps.Clear` | src/game.cpp:97-104 | every cell becomes a wall, every row keeps its length, the dimensions are kept and `stairsDown` becomes the invalid marker |
| `Maps.ClearIsFreshMap` | src/game.cpp:97-104 | clearing a valid map gives exactly the map the constructor builds for the same dimensions |
| `Dungeon.DrawBeforeBorder` | src/game.cpp:125-126 | for sides of at least 2, the largest staircase draw `n/4 + n/2 - 1` is below the clipping index `n - 1` |
| `Dungeon.StairsInsideRoom` | src/game.cpp:114-128 | every staircase draw lies inside the carved rectangle, although the rectangle is clipped at `n - 1` and the draw is not |
| `Dungeon.CarveRow` | src/game.cpp:120-122 | the inner loop floors exactly the cells `x .. xEnd-1` of row `y` and nothing else |
| `Dungeon.CarveRows` | src/game.cpp:119-123 | the outer loop floors exactly the rectangle of rows `y .. yEnd-1` and columns `xStart .. xEnd-1` and nothing else |
| `Dungeon.Generate` | src/game.cpp:111-133 | the level is Floor exactly on `[w/4, min(w/4+w/2, w-1)) x [h/4, min(h/4+h/2, h-1))`, Wall elsewhere, except for one StairsDown cell; that cell is inside the room and is the recorded `stairsDown` |
| `Dungeon.BorderStaysWall` | src/game.cpp:119-120 | the last row and the last column of a generated level are always walls |
| `Dungeon.StartIsWalkable` | src/game.cpp:276 | for sides of at least 4, the fixed start cell `(W/4+1, H/4+1)` lies in the room and is walkable |
| `Dungeon.StartIsWallWhenThreeWide` | src/game.cpp:114-122 | on a map three cells wide the room is the single column 0, so the start cell `(1, H/4+1)` is a wall |
| `Entities.NewEnemy` | src/game.cpp:9-34 | every kind gets rewards 10/5, positive max health and attack; every kind but Dragon starts at full health; Dragon starts at 0 health, so it is alive iff it is not a Dragon |
| `Entities.StatsDependOnKindOnly` | src/game.cpp:9-34 | two enemies of one kind differ only in id and position; different kinds have different glyphs |
| `Entities.NewPlayer` | src/game.cpp:36-38 | a new player is alive at full health, level 1, dungeon level 1, with no experience, gold or items |
| `Entities.Heal` | src/game.cpp:40-42 | health becomes `health + amt` if that is at most `maxHealth` and `maxHealth` otherwise; it never exceeds `maxHealth`; no other field changes |
| `Entities.HealTwiceIsHealSum` | src/game.cpp:40-42 | two non-negative heals equal one heal by their sum, and healing never lowers the health of a player within the maximum |
| `Entities.AddItem` | src/game.cpp:44-50 | succeeds iff at most 20 items are held; on success the item is appended last; on failure the player is unchanged |
| `Entities.InventoryNeverExceeds21` | src/game.cpp:44-50 | from at most 21 items, no sequence of pick-ups holds more than 21; earlier items stay at the front; only the inventory changes |
| `Entities.Move` | src/game.cpp:52-62 | North/South change y by -1/+1, West changes x by -1, East by +2; only the position changes; the result is always true |
| `Entities.MoveAsymmetry` | src/game.cpp:52-62 | North and South undo each other, but East then West (or West then East) ends one column east of the start |
| `MessageLog.AddMessage` | src/game.cpp:224-229 | the log gains `msg` as its newest entry and loses at most its oldest entry; it grows iff it held fewer than the limit; a log within the limit stays within it |
| `MessageLog.KeepsNewest` | src/game.cpp:224-229 | a log started within the limit always holds exactly the newest `limit` messages ever added, oldest first |
| `MessageLog.AddMessagesBound` | src/game.cpp:224-229 | after several additions the log is still within the limit, and its last entry is the last message added |
| `MessageLog.IntToString` | src/game.cpp:255 | the text starts with a minus sign exactly for a negative number, the rest is decimal digits with no leading zero (except for 0 itself), and it reads back as the number |
| `MessageLog.NatToString` | src/game.cpp:255 | a non-negative number is written as a non-empty run of decimal digits with no leading zero except the single digit "0", and it reads back as the number |
| `Game.SpawnKind` | src/game.cpp:290-292 | draw `k` picks the `k`-th entry of the spawn-order array; only the last draw, 6, yields a Dragon |
| `Game.SpawnOrderIsPermutation` | src/game.cpp:290-292 | the spawn-order array lists every enemy kind exactly once: distinct draws give distinct kinds and every kind has a draw |
| `Game.Spawned` | src/game.cpp:290-295 | the k-th spawned enemy is the constructor's enemy for id `nextId + k`, the drawn kind and the drawn position |
| `Game.SpawnEnemies` | src/game.cpp:285-296 | appends `max(0, count)` enemies after the existing ones, with consecutive fresh ids and interior positions, and advances the id counter by the same amount |
| `Game.SpawnItems` | src/game.cpp:298-307 | appends `max(0, count)` health potions after the existing floor items and changes nothing else |
| `Game.RemoveDeadEnemies` | src/game.cpp:309-316 | with no dead enemy the list is unchanged; otherwise exactly the first dead enemy is removed and all others, later dead ones included, keep their order |
| `Game.FirstDeadOfTail` | src/game.cpp:310-314 | past a living head, the first dead enemy of the list is the first dead enemy of its tail |
| `Game.ReapsOneCorpse` | src/game.cpp:309-316 | one pass lowers the number of dead enemies, and the list length, by exactly one when there is a dead enemy, and by nothing otherwise |
| `Game.ReapingTakesOnePassPerCorpse` | src/game.cpp:209-211 | with `k` dead enemies, `n` update ticks leave `k - n` of them when `n < k` and none when `n >= k` |
| `Game.GetEnemyAt` | src/game.cpp:318-323 | returns the index of an enemy that is alive and at `pos` with no such enemy before it, or nothing exactly when there is none |
| `Game.ReapingKeepsTarget` | src/game.cpp:309-323 | reaping never changes which enemy a lookup finds, nor whether it finds one |
| `Game.NewSession` | src/game.cpp:135 | a new session is in the main menu with the id counter at 1, no player, map, enemies, items or messages, and so meets the id invariant |
| `Game.Update` | src/game.cpp:209-211 | an update removes exactly the first dead enemy from the list when there is one (the rest keep their order), changes nothing else, and never changes whether a lookup at any position finds an enemy; ids stay unique and below the counter |
| `Game.HandleCombat` | src/game.cpp:252-271 | the enemy takes the player's attack power as damage, ignoring its defense (`Struck`); the rest of the enemy list, the map and the id counter are unchanged. If the enemy survives, the player takes `max(1, enemy attack - player defense)` damage, never less than 1, and nothing else about the player changes; the state becomes GameOver exactly when the player is then not alive (`Countered`). If the enemy dies, experience and gold rise by its rewards and the state is kept (`Rewarded`). The log stays within its bound, and a new GameOver logs "You have been slain!" last |
| `Game.Exchange` | src/game.cpp:256-265 | the surviving enemy's counter-attack, with the same `Struck` and `Countered` outcome and the slain line logged last |
| `Game.ExchangeLog` | src/game.cpp:255-264 | logging an exchange keeps the log within its bound, and a slain player's line is the newest entry |
| `Game.Victory` | src/game.cpp:266-270 | the killing blow, with the `Struck` and `Rewarded` outcome; the log stays within its bound |
| `Game.VictoryLog` | src/game.cpp:255-269 | logging a kill keeps the log within its bound |
| `Game.CombatKeepsIdsFresh` | src/game.cpp:252-271 | combat changes no id, so the id invariant survives it |
| `Game.NextLevel` | src/game.cpp:273-283 | the dungeon level rises by one, the player is at the start cell, the map is a freshly generated level, the enemies are exactly `max(0, 5 + level)` new ones with fresh increasing ids at interior positions, three potions join the kept floor items, the state is kept, and ids stay fresh |
| `Game.NewGame` | src/game.cpp:153-164 | state Playing, a fresh player at the start cell, a fresh level, five enemies appended to the old ones, three potions appended, the log reset to the welcome line, and ids stay fresh |
| `Game.Fight` | src/game.cpp:242-245 | when no living enemy is at the position nothing changes; otherwise the first one found fights the player; position, level, map and id counter are kept |
| `Game.MoveAndFight` | src/game.cpp:234-245 | the player ends at the move's destination; if a living enemy stands there, the turn is exactly the combat of the moved player with the first such enemy; without one nothing else changes |
| `Game.HandleMovement` | src/game.cpp:231-250 | without a player or map nothing changes; reaching the staircase descends one level to the start cell; otherwise the turn is exactly the move-and-fight step, so the player is at the destination on the same map and fights any living enemy there; a plain step changes only the position; the state either stays or becomes GameOver |
| `Game.IncreasingIdsAreDistinct` | src/game.cpp:294 | ids that increase from each enemy to the next increase along the whole list, so no two enemies share one |
| `Game.FirstDeadExists` | src/game.cpp:309-316 | a list with a dead enemy has a first dead enemy, the one the reaping loop stops at |
| `Game.DropKeepsIdsFresh` | src/game.cpp:309-316 | erasing one enemy from a list with increasing ids below the counter keeps the ids increasing and below the counter |
| `Game.ReapingKeepsIdsFresh` | src/game.cpp:209-211 | an update keeps the id invariant: all ids stay below the counter and increasing along the list |
| `Game.AppendKeepsIdsFresh` | src/game.cpp:294 | appending enemies numbered consecutively from the id counter keeps every id below the counter and the enemy ids increasing |
| `Game.TurnsKeepGameOver` | src/game.cpp:231-271 | no movement turn and no update leaves the GameOver state |
| `Game.Run` | src/game.cpp:142-144 | the state becomes Playing from any state, GameOver included, and nothing else changes |
| `Game.Shutdown` | src/game.cpp:146-151 | the player and the map are gone and the enemy list and the log are empty, while the floor items, the state and the id counter are kept, so ids stay fresh |
| `Game.ShutdownThenNewGame` | src/game.cpp:146-164 | a new game after a shutdown has exactly its five enemies and a one-line log, but keeps the floor items from before, adds three, and keeps counting ids up |

## Left out

- Rendering (`render`, `renderMap`, `renderEntities`, `renderUI`, `renderMessages`) is terminal output only.
- `saveGame` and `loadGame` are file-stream I/O whose parsing is unchecked stream extraction.
- The random engine, its seeding and the `DungeonGenerator` constructors are left out. Each draw is a parameter within its distribution's range.
- `processInput` has an empty body.
- `initialize` creates the dungeon generator that `newGame`, `nextLevel` and the spawn functions use. Here the generator is the draws passed in, so `initialize` has no counterpart. The model does not capture that calling `newGame` before `initialize` dereferences a null generator.
- The header-only `Map` accessors `getWidth`, `getHeight`, `getStairsDown` and `setStairsDown` are plain field reads and writes of the `Map` datatype. The header-only `takeDamage` and `isAlive` are modelled as assumptions (the next two lines).
- Entities.TakeDamage: the unfloored subtraction `health - max(0, n)` is an assumption about the unseen header, not taken from the code. Combat contracts are stated through `TakeDamage` and do not depend on its body.
- Entities.Alive: "health above 0" is an assumption about the unseen header.
- `Position` equality is datatype equality.
- `shared_ptr` ownership of items is left out. Inventories and floor items are sequences of item values.
- The item declaration is not part of this model, so the three numeric item fields are kept as anonymous slots.
- C++ `int` overflow is not modelled. All arithmetic is unbounded: health, experience, gold, dungeon level and the id counter.
- Game.HandleMovement: requires the destination to be on the map, because the source then reads that tile with an unchecked `getTile` and an off-map move is undefined behaviour.
- Game.HandleCombat: requires a player and an enemy index in range, because the source dereferences the player pointer and takes the enemy by reference without checks.
- Game.NextLevel: requires a player, because the source dereferences it without a check.
- Maps.NewMap: requires non-negative sides, because the C++ constructor throws `std::length_error` on a negative side when it sizes the grid; the model has no exceptions.
- Dungeon.Generate: requires both sides to be at least 2, because a smaller side gives an empty draw range, which `uniform_int_distribution` does not allow.

## Behaviour kept as written

These are modelled as the code does them, not as a cleaned-up design would:

- The Dragon is constructed with health 0, so it is dead on arrival. `GetEnemyAt` never finds it. An update reaps it once no enemy before it in the list is dead, because each update removes only the first corpse.
- `addItem` admits a 21st item, because its guard is `size() <= 20`.
- Moving East steps two cells. The other directions step one.
- The player's blow ignores the enemy's defense. The counter-attack subtracts the player's defense.
- An update reaps at most one dead enemy.
- `nextLevel` and `newGame` never clear the floor items; each call adds three potions.
- `newGame` does not clear the enemy list; it appends five new enemies to the old ones.
- `run` sets Playing from any state, so it leaves GameOver; `newGame` does too.
- A map three cells wide is accepted, but there the start cell is a wall (`Dungeon.StartIsWallWhenThreeWide`).
- The staircase draw ranges over the unclipped room. It still always lands inside the clipped room (`Dungeon.StairsInsideRoom`).

=== FILE: dungeon.dfy ===
/** The fixed single-room generator: an all-wall map with one centred floor rectangle and a
    down staircase placed by two random draws, which the model takes as parameters. */
module Dungeon {
  import opened Geometry
  import opened Tiles
  import opened Maps

  /** First carved index along an axis of length `n` (the room starts a quarter in). For the
      non-negative lengths used here Dafny's division agrees with the source's truncation. */
  function RoomStart(n: int): int {
    n / 4
  }

  /** One past the last carved index: the room is `n/2` long but the carving loop also stops
      before the last index `n - 1`, so the border row and column stay walls. */
  function RoomEnd(n: int): int {
    Min(n / 4 + n / 2, n - 1)
  }

  predicate InRoom(w: int, h: int, x: int, y: int) {
    RoomStart(w) <= x < RoomEnd(w) && RoomStart(h) <= y < RoomEnd(h)
  }

  /** The range of a staircase draw along an axis of length `n`: the uniform distribution over
      `[n/4, n/4 + n/2 - 1]`, which is the unclipped room. */
  predicate StairsDraw(n: int, s: int) {
    n / 4 <= s <= n / 4 + n / 2 - 1
  }

  /** The last value a staircase draw can take lies before the clipping index `n - 1`. */
  lemma DrawBeforeBorder(n: int)
    requires n >= 2
    ensures n / 4 + n / 2 - 1 < n - 1
  {
  }

  /** The staircase always lands inside the carved rectangle, although the rectangle is
      clipped and the draw is not. */
  lemma StairsInsideRoom(w: int, h: int, sx: int, sy: int)
    requires w >= 2 && h >= 2
    requires StairsDraw(w, sx) && StairsDraw(h, sy)
    ensures InRoom(w, h, sx, sy)
  {
  }

  /** What `Generate` puts at (x, y): the staircase, floor inside the room, wall elsewhere. */
  function Layout(w: int, h: int, sx: int, sy: int, x: int, y: int): Tile {
    if x == sx && y == sy then CanonicalTile(StairsDown)
    else if InRoom(w, h, x, y) then CanonicalTile(Floor)
    else CanonicalTile(Wall)
  }

  /** The inner carving loop: floors cells `x .. xEnd-1` of row `y`. */
  function CarveRow(m: Map, y: int, x: int, xEnd: int): (r: Map)
    requires Valid(m) && 0 <= y < m.height && 0 <= x && xEnd <= m.width
    ensures Valid(r) && r.width == m.width && r.height == m.height
    ensures r.stairsDown == m.stairsDown
    ensures forall i, j :: 0 <= i < m.height && 0 <= j < m.width ==>
      r.tiles[i][j] == if i == y && x <= j < xEnd then CanonicalTile(Floor) else m.tiles[i][j]
    ensures Canonical(m) ==> Canonical(r)
    decreases xEnd - x
  {
    if x < xEnd then CarveRow(SetTile(m, x, y, Floor), y, x + 1, xEnd) else m
  }

  /** The outer carving loop: floors rows `y .. yEnd-1` between columns `xStart` and `xEnd`. */
  function CarveRows(m: Map, y: int, yEnd: int, xStart: int, xEnd: int): (r: Map)
    requires Valid(m) && 0 <= y && yEnd <= m.height && 0 <= xStart && xEnd <= m.width
    ensures Valid(r) && r.width == m.width && r.height == m.height
    ensures r.stairsDown == m.stairsDown
    ensures forall i, j :: 0 <= i < m.height && 0 <= j < m.width ==>
      r.tiles[i][j] == if y <= i < yEnd && xStart <= j < xEnd then CanonicalTile(Floor) else m.tiles[i][j]
    ensures Canonical(m) ==> Canonical(r)
    decreases yEnd - y
  {
    if y < yEnd then CarveRows(CarveRow(m, y, xStart, xEnd), y + 1, yEnd, xStart, xEnd) else m
  }

  /** Builds a `w` x `h` level: walls everywhere except the clipped centre room, with the
      staircase at the drawn cell (`sx`, `sy`), which is recorded as the map's `stairsDown`. */
  function Generate(w: int, h: int, invalid: Position, sx: int, sy: int): (m: Map)
    requires w >= 2 && h >= 2
    requires StairsDraw(w, sx) && StairsDraw(h, sy)
    ensures Valid(m) && m.width == w && m.height == h
    ensures m.stairsDown == Position(sx, sy) && InRoom(w, h, sx, sy)
    ensures 0 <= sx < w && 0 <= sy < h && m.tiles[sy][sx] == CanonicalTile(StairsDown)
    ensures forall y, x :: 0 <= y < h && 0 <= x < w ==> m.tiles[y][x] == Layout(w, h, sx, sy, x, y)
    ensures Canonical(m)
  {
    StairsInsideRoom(w, h, sx, sy);
    var carved := CarveRows(NewMap(w, h, invalid), RoomStart(h), RoomEnd(h), RoomStart(w), RoomEnd(w));
    var m := SetTile(carved, sx, sy, StairsDown);
    m.(stairsDown := Position(sx, sy))
  }

  /** The last row and the last column are never carved: the room is a strict part of the grid. */
  lemma BorderStaysWall(w: int, h: int, invalid: Position, sx: int, sy: int, x: int, y: int)
    requires w >= 2 && h >= 2
    requires StairsDraw(w, sx) && StairsDraw(h, sy)
    requires 0 <= x < w && 0 <= y < h
    requires x == w - 1 || y == h - 1
    ensures GetTile(Generate(w, h, invalid, sx, sy), x, y) == CanonicalTile(Wall)
  {
  }

  /** The fixed start cell `(w/4 + 1, h/4 + 1)` that a new level puts the player on lies in the
      room once both sides are at least 4, so it is walkable. */
  lemma StartIsWalkable(w: int, h: int, invalid: Position, sx: int, sy: int)
    requires w >= 4 && h >= 4
    requires StairsDraw(w, sx) && StairsDraw(h, sy)
    ensures InRoom(w, h, w / 4 + 1, h / 4 + 1)
    ensures IsWalkable(Generate(w, h, invalid, sx, sy), w / 4 + 1, h / 4 + 1)
  {
  }

  /** On a map three cells wide the room is a single column, so the start cell `(1, h/4 + 1)`
      that a new level puts the player on is a wall. */
  lemma StartIsWallWhenThreeWide(h: int, invalid: Position, sx: int, sy: int)
    requires h >= 2
    requires StairsDraw(3, sx) && StairsDraw(h, sy)
    ensures 0 <= h / 4 + 1 < h
    ensures GetTile(Generate(3, h, invalid, sx, sy), 1, h / 4 + 1) == CanonicalTile(Wall)
  {
  }
}

=== FILE: entities.dfy ===
/** Players, enemies and items, with the per-entity rules: the enemy stat table, healing,
    the inventory guard and movement. */
module Entities {
  import opened Geometry

  datatype EnemyType = Goblin | Orc | Skeleton | Zombie | Dragon | Rat | Spider

  datatype Enemy = Enemy(
    id: int, kind: EnemyType, pos: Position, name: string, symbol: char,
    health: int, maxHealth: int, attackPower: int, defense: int,
    expReward: int, goldReward: int)

  /** The only item kind the modelled code creates. */
  datatype ItemType = Potion

  /** An item: name, kind, glyph and three numeric effect slots whose meaning the item
      declaration (not part of this model) does not make visible. */
  datatype Item = Item(name: string, kind: ItemType, symbol: char, slot1: int, slot2: int, slot3: int)

  datatype Player = Player(
    id: int, name: string, pos: Position,
    health: int, maxHealth: int, attackPower: int, defense: int,
    level: int, experience: int, gold: int, dungeonLevel: int,
    inventory: seq<Item>)

  /** An entity is alive while its health is positive. */
  predicate Alive(health: int) {
    health > 0
  }

  /** Damage lowers health by the non-negative part of the amount; health may go negative. */
  function TakeDamage(health: int, amount: int): int {
    health - Max(0, amount)
  }

  /** `addItem` accepts while the inventory holds at most this many items. */
  const InventoryGuard := 20

  /** The enemy constructor: every stat is fixed by the kind. Rewards are 10 experience and
      5 gold for every kind, and every kind but the Dragon starts at full health; the Dragon
      starts with health 0 and is therefore dead on arrival. */
  function NewEnemy(id: int, kind: EnemyType, pos: Position): (e: Enemy)
    ensures e.id == id && e.kind == kind && e.pos == pos
    ensures e.expReward == 10 && e.goldReward == 5
    ensures e.maxHealth > 0 && e.attackPower > 0 && e.defense >= 0
    ensures kind != Dragon ==> e.health == e.maxHealth
    ensures kind == Dragon ==> e.health == 0
    ensures Alive(e.health) <==> kind != Dragon
  {
    match kind
    case Goblin => Enemy(id, kind, pos, "Goblin", 'g', 20, 20, 5, 2, 10, 5)
    case Orc => Enemy(id, kind, pos, "Orc", 'o', 40, 40, 10, 5, 10, 5)
    case Skeleton => Enemy(id, kind, pos, "Skeleton", 's', 25, 25, 8, 3, 10, 5)
    case Zombie => Enemy(id, kind, pos, "Zombie", 'z', 35, 35, 6, 8, 10, 5)
    case Dragon => Enemy(id, kind, pos, "Dragon", 'D', 0, 200, 30, 20, 10, 5)
    case Rat => Enemy(id, kind, pos, "Rat", 'r', 5, 5, 2, 0, 10, 5)
    case Spider => Enemy(id, kind, pos, "Spider", 'x', 15, 15, 6, 1, 10, 5)
  }

  /** Two enemies of the same kind differ only in identity and position, and different kinds
      are drawn with different glyphs. */
  lemma StatsDependOnKindOnly(id1: int, id2: int, k1: EnemyType, k2: EnemyType, p1: Position, p2: Position)
    ensures k1 == k2 ==> NewEnemy(id1, k1, p1).(id := id2, pos := p2) == NewEnemy(id2, k2, p2)
    ensures NewEnemy(id1, k1, p1).symbol == NewEnemy(id2, k2, p2).symbol ==> k1 == k2
  {
  }

  /** The player constructor: a fresh, living level-1 character with an empty inventory. */
  function NewPlayer(id: int, name: string, pos: Position): (p: Player)
    ensures p.id == id && p.name == name && p.pos == pos
    ensures Alive(p.health) && p.health == p.maxHealth
    ensures p.level == 1 && p.dungeonLevel == 1 && p.experience == 0 && p.gold == 0
    ensures p.inventory == []
  {
    Player(id, name, pos, 100, 100, 5, 2, 1, 0, 0, 1, [])
  }

  /** Healing adds `amt` but never lifts health above the maximum; nothing else changes. */
  function Heal(p: Player, amt: int): (r: Player)
    ensures r.health <= p.maxHealth
    ensures r.health == p.health + amt || r.health == p.maxHealth
    ensures r.health == p.health + amt <==> p.health + amt <= p.maxHealth
    ensures r == p.(health := r.health)
  {
    p.(health := Min(p.health + amt, p.maxHealth))
  }

  /** Two non-negative heals of a player at or below the maximum amount to one heal by the sum. */
  lemma HealTwiceIsHealSum(p: Player, a: int, b: int)
    requires 0 <= a && 0 <= b && p.health <= p.maxHealth
    ensures Heal(Heal(p, a), b) == Heal(p, a + b)
    ensures p.health <= Heal(p, a).health
  {
  }

  /** The inventory guard: an item is appended exactly when at most 20 are held, so a 21st
      item is admitted; a refused item leaves the player unchanged. */
  function AddItem(p: Player, item: Item): (r: (Player, bool))
    ensures r.1 <==> |p.inventory| <= InventoryGuard
    ensures r.1 ==> r.0 == p.(inventory := p.inventory + [item])
    ensures !r.1 ==> r.0 == p
    ensures |p.inventory| <= InventoryGuard + 1 ==> |r.0.inventory| <= InventoryGuard + 1
  {
    if |p.inventory| <= InventoryGuard then (p.(inventory := p.inventory + [item]), true)
    else (p, false)
  }

  /** Offers the items one after the other, as repeated `addItem` calls would. */
  function AddItems(p: Player, items: seq<Item>): Player
    decreases |items|
  {
    if |items| == 0 then p else AddItems(AddItem(p, items[0]).0, items[1..])
  }

  /** Starting within capacity, no sequence of pick-ups holds more than 21 items, the held
      items always begin with the ones held before, and nothing but the inventory changes. */
  lemma {:induction false} InventoryNeverExceeds21(p: Player, items: seq<Item>)
    requires |p.inventory| <= InventoryGuard + 1
    ensures |AddItems(p, items).inventory| <= InventoryGuard + 1
    ensures p.inventory <= AddItems(p, items).inventory
    ensures AddItems(p, items) == p.(inventory := AddItems(p, items).inventory)
    decreases |items|
  {
    if |items| > 0 {
      InventoryNeverExceeds21(AddItem(p, items[0]).0, items[1..]);
    }
  }

  /** Steps one cell north, south or west, but two cells east; the move always succeeds. */
  function Move(p: Player, dir: Direction): (r: (Player, bool))
    ensures r.1
    ensures r.0 == p.(pos := r.0.pos)
    ensures dir == North ==> r.0.pos == Position(p.pos.x, p.pos.y - 1)
    ensures dir == South ==> r.0.pos == Position(p.pos.x, p.pos.y + 1)
    ensures dir == East ==> r.0.pos == Position(p.pos.x + 2, p.pos.y)
    ensures dir == West ==> r.0.pos == Position(p.pos.x - 1, p.pos.y)
  {
    var x, y := p.pos.x, p.pos.y;
    var q := match dir
      case North => Position(x, y - 1)
      case South => Position(x, y + 1)
      case East => Position(x + 2, y)
      case West => Position(x - 1, y);
    (p.(pos := q), true)
  }

  /** North and South undo each other, but East then West leaves the player one column east
      of the start: the step sizes are asymmetric. */
  lemma MoveAsymmetry(p: Player)
    ensures Move(Move(p, North).0, South).0 == p
    ensures Move(Move(p, South).0, North).0 == p
    ensures Move(Move(p, East).0, West).0.pos == Position(p.pos.x + 1, p.pos.y)
    ensures Move(Move(p, West).0, East).0.pos == Position(p.pos.x + 1, p.pos.y)
  {
  }
}

=== FILE: game.dfy ===
/** The game session: state machine, message log, combat, enemy reaping and level changes.
    The header constants are fields of `Config`; the random draws a transition consumes are
    passed in, constrained to the ranges of the distributions that produce them. */
module Game {
  import opened Wrappers
  import opened Geometry
  import opened Tiles
  import opened Maps
  import opened Dungeon
  import opened Entities
  import opened MessageLog

  /** The constants of the game header: map size, log capacity and the "no staircase" marker. */
  datatype Config = Config(mapWidth: int, mapHeight: int, maxMessages: nat, invalidPosition: Position)

  /** Spawn positions are drawn from `[1, W-2] x [1, H-2]`, which needs both sides to be at least 3. */
  predicate ValidConfig(cfg: Config) {
    cfg.mapWidth >= 3 && cfg.mapHeight >= 3
  }

  datatype GameState = MainMenu | Playing | GameOver

  /** The session. `player` and `tileMap` are `None` before the first game and after shutdown. */
  datatype Session = Session(
    state: GameState, nextEntityId: int,
    player: Option<Player>, tileMap: Option<Map>,
    enemies: seq<Enemy>, floorItems: seq<Item>, messages: seq<string>)

  /** The session as constructed: main menu, entity ids starting at 1, nothing allocated. */
  function NewSession(): (r: Session)
    ensures r.state == MainMenu && r.nextEntityId == 1
    ensures r.player.None? && r.tileMap.None? && r.enemies == [] && r.floorItems == [] && r.messages == []
    ensures IdsFresh(r)
  {
    Session(MainMenu, 1, None, None, [], [], [])
  }

  /** `run`: enters the Playing state from any state, GameOver included; nothing else changes. */
  function Run(g: Session): (r: Session)
    ensures r.state == Playing
    ensures r.(state := g.state) == g
  {
    g.(state := Playing)
  }

  /** `shutdown`: drops the player and the map and empties the enemy list and the log. The
      floor items, the state and the id counter are left as they were. */
  function Shutdown(g: Session): (r: Session)
    ensures r.player.None? && r.tileMap.None? && r.enemies == [] && r.messages == []
    ensures r.state == g.state && r.nextEntityId == g.nextEntityId && r.floorItems == g.floorItems
    ensures IdsFresh(g) ==> IdsFresh(r)
  {
    g.(player := None, tileMap := None, enemies := [], messages := [])
  }

  /** Adds one line to the session's message log. */
  function Log(g: Session, cfg: Config, msg: string): Session {
    g.(messages := AddMessage(g.messages, cfg.maxMessages, msg))
  }

  /** Where a new game or a new level puts the player. */
  function StartPosition(cfg: Config): Position {
    Position(cfg.mapWidth / 4 + 1, cfg.mapHeight / 4 + 1)
  }

  // ---------------------------------------------------------------------------
  // Spawning

  /** One enemy's draws: a position and an index into the spawn order. */
  datatype EnemyDraw = EnemyDraw(x: int, y: int, kind: int)

  /** A position strictly inside the map border, the range of a spawn position draw. */
  predicate Interior(cfg: Config, p: Position) {
    1 <= p.x <= cfg.mapWidth - 2 && 1 <= p.y <= cfg.mapHeight - 2
  }

  predicate DrawsFit(cfg: Config, ds: seq<EnemyDraw>) {
    forall i :: 0 <= i < |ds| ==> Interior(cfg, Position(ds[i].x, ds[i].y)) && 0 <= ds[i].kind <= 6
  }

  /** The draws one level needs: the staircase cell and `count` enemies (none when `count` is
      not positive, as the spawning loop then does not run). */
  datatype LevelDraws = LevelDraws(stairsX: int, stairsY: int, enemies: seq<EnemyDraw>)

  predicate LevelDrawsFit(cfg: Config, d: LevelDraws, count: int) {
    && StairsDraw(cfg.mapWidth, d.stairsX) && StairsDraw(cfg.mapHeight, d.stairsY)
    && |d.enemies| == Max(0, count)
    && DrawsFit(cfg, d.enemies)
  }

  /** The spawn order indexed by the type draw; it is not the declaration order, and only the
      last draw yields a Dragon. */
  function SpawnKind(k: int): (r: EnemyType)
    requires 0 <= k <= 6
    ensures r == Dragon <==> k == 6
  {
    [Goblin, Orc, Skeleton, Zombie, Rat, Spider, Dragon][k]
  }

  /** The enemies created from `ds`, numbered from `id` on. */
  function Spawned(id: int, ds: seq<EnemyDraw>): (es: seq<Enemy>)
    requires forall i :: 0 <= i < |ds| ==> 0 <= ds[i].kind <= 6
    ensures |es| == |ds|
    ensures forall i :: 0 <= i < |ds| ==>
      es[i] == NewEnemy(id + i, SpawnKind(ds[i].kind), Position(ds[i].x, ds[i].y))
    decreases |ds|
  {
    if |ds| == 0 then []
    else [NewEnemy(id, SpawnKind(ds[0].kind), Position(ds[0].x, ds[0].y))] + Spawned(id + 1, ds[1..])
  }

  /** The spawn order lists every enemy kind exactly once: different draws give different kinds,
      and every kind has a draw. */
  lemma SpawnOrderIsPermutation(k1: int, k2: int, t: EnemyType)
    requires 0 <= k1 <= 6 && 0 <= k2 <= 6
    ensures SpawnKind(k1) == SpawnKind(k2) ==> k1 == k2
    ensures exists k :: 0 <= k <= 6 && SpawnKind(k) == t
  {
    var k := match t
      case Goblin => 0 case Orc => 1 case Skeleton => 2 case Zombie => 3
      case Rat => 4 case Spider => 5 case Dragon => 6;
    assert SpawnKind(k) == t;
  }

  /** Appends `count` enemies (none if `count` is not positive) with consecutive fresh ids at
      interior positions; nothing else but the id counter changes. */
  function SpawnEnemies(g: Session, cfg: Config, count: int, ds: seq<EnemyDraw>): (r: Session)
    requires |ds| == Max(0, count) && DrawsFit(cfg, ds)
    ensures r == g.(enemies := r.enemies, nextEntityId := r.nextEntityId)
    ensures r.nextEntityId == g.nextEntityId + Max(0, count)
    ensures |r.enemies| == |g.enemies| + Max(0, count)
    ensures r.enemies[..|g.enemies|] == g.enemies
    ensures forall i :: |g.enemies| <= i < |r.enemies| ==>
      && r.enemies[i].id == g.nextEntityId + (i - |g.enemies|)
      && Interior(cfg, r.enemies[i].pos)
      && r.enemies[i].kind == SpawnKind(ds[i - |g.enemies|].kind)
  {
    g.(enemies := g.enemies + Spawned(g.nextEntityId, ds), nextEntityId := g.nextEntityId + |ds|)
  }

  const HealthPotion := Item("Health Potion", Potion, '!', 20, 0, 25)

  /** Appends `count` health potions to the floor items. Their positions are drawn and then
      discarded, so the draws do not appear here. */
  function SpawnItems(g: Session, count: int): (r: Session)
    ensures r == g.(floorItems := r.floorItems)
    ensures |r.floorItems| == |g.floorItems| + Max(0, count)
    ensures r.floorItems[..|g.floorItems|] == g.floorItems
    ensures forall i :: |g.floorItems| <= i < |r.floorItems| ==> r.floorItems[i] == HealthPotion
  {
    g.(floorItems := g.floorItems + seq(Max(0, count), _ => HealthPotion))
  }

  // ---------------------------------------------------------------------------
  // Enemy lookup and reaping

  predicate Dead(e: Enemy) {
    !Alive(e.health)
  }

  /** Position `i` holds the first dead enemy. */
  predicate FirstDead(es: seq<Enemy>, i: int) {
    0 <= i < |es| && Dead(es[i]) && forall j :: 0 <= j < i ==> !Dead(es[j])
  }

  /** Removes the first dead enemy, if any; every other enemy keeps its place in the order,
      including later dead ones. */
  function RemoveDeadEnemies(es: seq<Enemy>): (r: seq<Enemy>)
    ensures (forall i :: 0 <= i < |es| ==> !Dead(es[i])) ==> r == es
    ensures forall i :: FirstDead(es, i) ==> r == es[..i] + es[i + 1..]
    decreases |es|
  {
    if |es| == 0 then []
    else if Dead(es[0]) then es[1..]
    else
      FirstDeadOfTail(es);
      [es[0]] + RemoveDeadEnemies(es[1..])
  }

  /** Past a living head, the first corpse of the list is the first corpse of its tail. */
  lemma FirstDeadOfTail(es: seq<Enemy>)
    requires |es| > 0 && !Dead(es[0])
    ensures forall i :: FirstDead(es, i) ==>
      FirstDead(es[1..], i - 1) && es[..i] + es[i + 1..] == [es[0]] + (es[1..][..i - 1] + es[1..][i..])
  {
  }

  function CountDead(es: seq<Enemy>): nat
    decreases |es|
  {
    if |es| == 0 then 0 else (if Dead(es[0]) then 1 else 0) + CountDead(es[1..])
  }

  /** One reaping pass removes exactly one corpse when there is one, and nothing otherwise. */
  lemma {:induction false} ReapsOneCorpse(es: seq<Enemy>)
    ensures CountDead(RemoveDeadEnemies(es)) == if CountDead(es) > 0 then CountDead(es) - 1 else 0
    ensures |RemoveDeadEnemies(es)| == if CountDead(es) > 0 then |es| - 1 else |es|
    decreases |es|
  {
    if |es| > 0 {
      ReapsOneCorpse(es[1..]);
      if !Dead(es[0]) {
        var rest := RemoveDeadEnemies(es[1..]);
        assert ([es[0]] + rest)[1..] == rest;
      }
    }
  }

  /** `n` consecutive reaping passes. */
  function Reap(es: seq<Enemy>, n: nat): seq<Enemy>
    decreases n
  {
    if n == 0 then es else Reap(RemoveDeadEnemies(es), n - 1)
  }

  /** With `k` corpses it takes `k` passes to clear them all, and fewer do not suffice. */
  lemma {:induction false} ReapingTakesOnePassPerCorpse(es: seq<Enemy>, n: nat)
    ensures CountDead(Reap(es, n)) == if n < CountDead(es) then CountDead(es) - n else 0
    decreases n
  {
    if n > 0 {
      assert Reap(es, n) == Reap(RemoveDeadEnemies(es), n - 1);
      ReapsOneCorpse(es);
      ReapingTakesOnePassPerCorpse(RemoveDeadEnemies(es), n - 1);
    }
  }

  /** The enemy a move at `pos` runs into: alive and standing there. */
  predicate Blocks(e: Enemy, pos: Position) {
    e.pos == pos && Alive(e.health)
  }

  /** The index of the first living enemy at `pos`, if there is one. */
  function GetEnemyAt(es: seq<Enemy>, pos: Position): (r: Option<nat>)
    ensures r.Some? ==> r.value < |es| && Blocks(es[r.value], pos)
    ensures r.Some? ==> forall j :: 0 <= j < r.value ==> !Blocks(es[j], pos)
    ensures r.None? ==> forall j :: 0 <= j < |es| ==> !Blocks(es[j], pos)
    decreases |es|
  {
    if |es| == 0 then None
    else if Blocks(es[0], pos) then Some(0)
    else match GetEnemyAt(es[1..], pos)
      case None => None
      case Some(i) => Some(i + 1)
  }

  /** Reaping never changes which enemy a move runs into: only dead enemies are removed, and
      they are never found. */
  lemma {:induction false} ReapingKeepsTarget(es: seq<Enemy>, pos: Position)
    ensures GetEnemyAt(RemoveDeadEnemies(es), pos).Some? <==> GetEnemyAt(es, pos).Some?
    ensures GetEnemyAt(es, pos).Some? ==>
      RemoveDeadEnemies(es)[GetEnemyAt(RemoveDeadEnemies(es), pos).value] == es[GetEnemyAt(es, pos).value]
    decreases |es|
  {
    if |es| > 0 {
      ReapingKeepsTarget(es[1..], pos);
      var r := RemoveDeadEnemies(es);
      if Dead(es[0]) {
        assert r == es[1..];
      } else {
        assert r == [es[0]] + RemoveDeadEnemies(es[1..]);
        assert r[1..] == RemoveDeadEnemies(es[1..]);
      }
    }
  }

  /** The per-tick update: reap one dead enemy. */
  function Update(g: Session): (r: Session)
    ensures r == g.(enemies := RemoveDeadEnemies(g.enemies))
    ensures CountDead(r.enemies) == if CountDead(g.enemies) > 0 then CountDead(g.enemies) - 1 else 0
    ensures forall pos :: GetEnemyAt(r.enemies, pos).Some? <==> GetEnemyAt(g.enemies, pos).Some?
    ensures IdsFresh(g) ==> IdsFresh(r)
  {
    ReapsOneCorpse(g.enemies);
    ReapingKeepsIdsFresh(g);
    forall pos
      ensures GetEnemyAt(RemoveDeadEnemies(g.enemies), pos).Some? <==> GetEnemyAt(g.enemies, pos).Some?
    {
      ReapingKeepsTarget(g.enemies, pos);
    }
    g.(enemies := RemoveDeadEnemies(g.enemies))
  }

  // ---------------------------------------------------------------------------
  // Combat

  /** The enemy at `i` took the player's attack power as damage (its defense is ignored) and
      nothing else changed in the enemy list, the map, the floor items or the id counter. */
  predicate Struck(g: Session, i: int, r: Session)
    requires g.player.Some? && 0 <= i < |g.enemies|
  {
    var e := g.enemies[i];
    && r.enemies == g.enemies[i := e.(health := TakeDamage(e.health, g.player.value.attackPower))]
    && r.tileMap == g.tileMap && r.floorItems == g.floorItems && r.nextEntityId == g.nextEntityId
  }

  /** The surviving enemy struck back: the player took `max(1, attack - defense)` damage, which
      is never less than 1, nothing else about the player changed, and the session is over
      exactly when the player is no longer alive. */
  predicate Countered(g: Session, i: int, r: Session)
    requires g.player.Some? && 0 <= i < |g.enemies|
  {
    var p := g.player.value;
    && r.player == Some(p.(health := TakeDamage(p.health, Max(1, g.enemies[i].attackPower - p.defense))))
    && r.state == (if Alive(r.player.value.health) then g.state else GameOver)
  }

  /** The enemy died: the player collected its experience and gold and nothing else changed. */
  predicate Rewarded(g: Session, i: int, r: Session)
    requires g.player.Some? && 0 <= i < |g.enemies|
  {
    var p := g.player.value;
    && r.player == Some(p.(experience := p.experience + g.enemies[i].expReward,
                           gold := p.gold + g.enemies[i].goldReward))
    && r.state == g.state
  }

  /** Whether the player's blow leaves the enemy at `i` alive. */
  predicate Survives(g: Session, i: int)
    requires g.player.Some? && 0 <= i < |g.enemies|
  {
    Alive(TakeDamage(g.enemies[i].health, g.player.value.attackPower))
  }

  /** One exchange of blows with enemy `i`. The player hits for their attack power, ignoring
      the enemy's defense. A surviving enemy hits back for its attack power minus the player's
      defense, but for at least 1, and the game is over when that kills the player. Killing
      the enemy earns its experience and gold rewards instead. */
  function HandleCombat(g: Session, cfg: Config, i: int): (r: Session)
    requires g.player.Some? && 0 <= i < |g.enemies|
    ensures Struck(g, i, r)
    ensures Survives(g, i) ==> Countered(g, i, r)
    ensures !Survives(g, i) ==> Rewarded(g, i, r)
    ensures |g.messages| <= cfg.maxMessages ==> |r.messages| <= cfg.maxMessages
    ensures (0 < cfg.maxMessages && |g.messages| <= cfg.maxMessages
             && r.state == GameOver && g.state != GameOver) ==>
      |r.messages| > 0 && r.messages[|r.messages| - 1] == "You have been slain!"
  {
    if Survives(g, i) then Exchange(g, cfg, i) else Victory(g, cfg, i)
  }

  /** The enemy survives the player's blow and strikes back for at least one point. */
  function Exchange(g: Session, cfg: Config, i: int): (r: Session)
    requires g.player.Some? && 0 <= i < |g.enemies| && Survives(g, i)
    ensures Struck(g, i, r) && Countered(g, i, r)
    ensures |g.messages| <= cfg.maxMessages ==> |r.messages| <= cfg.maxMessages
    ensures (0 < cfg.maxMessages && |g.messages| <= cfg.maxMessages
             && r.state == GameOver && g.state != GameOver) ==>
      |r.messages| > 0 && r.messages[|r.messages| - 1] == "You have been slain!"
  {
    var p := g.player.value;
    var e := g.enemies[i];
    var enemyDamage := Max(1, e.attackPower - p.defense);
    var health := TakeDamage(p.health, enemyDamage);
    var slain := !Alive(health);
    g.(enemies := g.enemies[i := e.(health := TakeDamage(e.health, p.attackPower))],
       player := Some(p.(health := health)),
       state := if slain then GameOver else g.state,
       messages := ExchangeLog(g.messages, cfg.maxMessages, e.name, p.attackPower, enemyDamage, slain))
  }

  /** Logs an exchange of blows; when the player is slain that line is logged last. */
  function ExchangeLog(log: seq<string>, limit: nat, name: string, damage: int, enemyDamage: int,
                       slain: bool): (r: seq<string>)
    ensures |log| <= limit ==> |r| <= limit
    ensures (slain && 0 < limit) ==> |r| > 0 && r[|r| - 1] == "You have been slain!"
  {
    var hitLine := "You hit " + name + " for " + IntToString(damage) + " damage!";
    var counterLine := name + " hits you for " + IntToString(enemyDamage) + " damage!";
    var lines := [hitLine, counterLine];
    AddMessagesBound(log, limit, lines);
    var exchanged := AddMessages(log, limit, lines);
    if slain then AddMessage(exchanged, limit, "You have been slain!") else exchanged
  }

  /** The player's blow kills the enemy and the player collects its rewards. */
  function Victory(g: Session, cfg: Config, i: int): (r: Session)
    requires g.player.Some? && 0 <= i < |g.enemies| && !Survives(g, i)
    ensures Struck(g, i, r) && Rewarded(g, i, r)
    ensures |g.messages| <= cfg.maxMessages ==> |r.messages| <= cfg.maxMessages
  {
    var p := g.player.value;
    var e := g.enemies[i];
    g.(enemies := g.enemies[i := e.(health := TakeDamage(e.health, p.attackPower))],
       player := Some(p.(experience := p.experience + e.expReward, gold := p.gold + e.goldReward)),
       messages := VictoryLog(g.messages, cfg.maxMessages, e.name, p.attackPower, e.expReward))
  }

  /** Logs the killing blow and the experience it earned. */
  function VictoryLog(log: seq<string>, limit: nat, name: string, damage: int, exp: int): (r: seq<string>)
    ensures |log| <= limit ==> |r| <= limit
  {
    var hitLine := "You hit " + name + " for " + IntToString(damage) + " damage!";
    var lines := [hitLine, "You defeated " + name + "! +" + IntToString(exp) + " XP"];
    AddMessagesBound(log, limit, lines);
    AddMessages(log, limit, lines)
  }

  // ---------------------------------------------------------------------------
  // Level transitions and the turn

  /** Descends one level: a fresh map, the player at the start cell, the enemy list replaced
      by `5 + new level` newly spawned enemies, three more potions on the floor (the old ones
      are kept), and a log line. */
  function NextLevel(g: Session, cfg: Config, d: LevelDraws): (r: Session)
    requires ValidConfig(cfg) && g.player.Some?
    requires LevelDrawsFit(cfg, d, 5 + g.player.value.dungeonLevel + 1)
    ensures r.player.Some?
    ensures r.player.value == g.player.value.(
      dungeonLevel := g.player.value.dungeonLevel + 1, pos := StartPosition(cfg))
    ensures r.tileMap == Some(Generate(cfg.mapWidth, cfg.mapHeight, cfg.invalidPosition, d.stairsX, d.stairsY))
    ensures |r.enemies| == Max(0, 5 + r.player.value.dungeonLevel)
    ensures forall i :: 0 <= i < |r.enemies| ==>
      r.enemies[i].id == g.nextEntityId + i && Interior(cfg, r.enemies[i].pos)
    ensures r.nextEntityId == g.nextEntityId + |r.enemies|
    ensures r.floorItems == g.floorItems + [HealthPotion, HealthPotion, HealthPotion]
    ensures r.state == g.state
    ensures IdsFresh(g) ==> IdsFresh(r)
    ensures |g.messages| <= cfg.maxMessages ==> |r.messages| <= cfg.maxMessages
  {
    var p := g.player.value;
    var level := p.dungeonLevel + 1;
    var m := Generate(cfg.mapWidth, cfg.mapHeight, cfg.invalidPosition, d.stairsX, d.stairsY);
    // The enemy list is cleared, so the spawned enemies make up the whole list.
    var spawned := Spawned(g.nextEntityId, d.enemies);
    var g1 := g.(player := Some(p.(dungeonLevel := level, pos := StartPosition(cfg))),
                 tileMap := Some(m), enemies := spawned, nextEntityId := g.nextEntityId + |spawned|);
    var g2 := SpawnItems(g1, 3);
    assert g2.floorItems == g.floorItems + [HealthPotion, HealthPotion, HealthPotion];
    var r := Log(g2, cfg, "You descend to dungeon level " + IntToString(level));
    AppendKeepsIdsFresh(g.(enemies := []), r, g.nextEntityId);
    r
  }

  /** Starts a game: a fresh player at the start cell, a fresh map, five more enemies and
      three more potions (earlier ones are not cleared), the log reset to the welcome line. */
  function NewGame(g: Session, cfg: Config, name: string, d: LevelDraws): (r: Session)
    requires ValidConfig(cfg) && LevelDrawsFit(cfg, d, 5)
    ensures r.state == Playing
    ensures r.player == Some(NewPlayer(g.nextEntityId, name, StartPosition(cfg)))
    ensures r.tileMap == Some(Generate(cfg.mapWidth, cfg.mapHeight, cfg.invalidPosition, d.stairsX, d.stairsY))
    ensures |r.enemies| == |g.enemies| + 5 && r.enemies[..|g.enemies|] == g.enemies
    ensures forall i :: |g.enemies| <= i < |r.enemies| ==> r.enemies[i].id == g.nextEntityId + 1 + (i - |g.enemies|)
    ensures r.nextEntityId == g.nextEntityId + 6
    ensures r.floorItems == g.floorItems + [HealthPotion, HealthPotion, HealthPotion]
    ensures r.messages == if cfg.maxMessages > 0 then ["Welcome to the dungeon, " + name + "!"] else []
    ensures IdsFresh(g) ==> IdsFresh(r)
  {
    var p := NewPlayer(g.nextEntityId, name, Position(5, 5));
    var m := Generate(cfg.mapWidth, cfg.mapHeight, cfg.invalidPosition, d.stairsX, d.stairsY);
    var g1 := g.(player := Some(p.(pos := StartPosition(cfg))), tileMap := Some(m),
                 nextEntityId := g.nextEntityId + 1);
    var g2 := SpawnEnemies(g1, cfg, 5, d.enemies);
    var g3 := SpawnItems(g2, 3);
    assert g3.floorItems == g.floorItems + [HealthPotion, HealthPotion, HealthPotion] by {
      assert g2.floorItems == g.floorItems;
    }
    var welcome := "Welcome to the dungeon, " + name + "!";
    var r := g3.(state := Playing, messages := AddMessage([], cfg.maxMessages, welcome));
    AppendKeepsIdsFresh(g.(nextEntityId := g.nextEntityId + 1, player := None), r, g.nextEntityId + 1);
    r
  }

  /** Where a move in `dir` takes the player of `g`. */
  function Destination(g: Session, dir: Direction): Position
    requires g.player.Some?
  {
    Move(g.player.value, dir).0.pos
  }

  /** Preconditions of a turn: the map is well formed, the move stays on the map (the source
      reads the destination tile without a bounds check), and the draws fit the next level. */
  predicate TurnFits(g: Session, cfg: Config, dir: Direction, d: LevelDraws) {
    g.player.Some? && g.tileMap.Some? ==>
      && Valid(g.tileMap.value)
      && IsValidPosition(g.tileMap.value, Destination(g, dir).x, Destination(g, dir).y)
      && LevelDrawsFit(cfg, d, 5 + g.player.value.dungeonLevel + 1)
  }

  /** The collision check of a turn: the first living enemy at `pos`, if any, fights the
      player. Nothing but combat changes. */
  function Fight(g: Session, cfg: Config, pos: Position): (r: Session)
    requires g.player.Some?
    ensures r.player.Some? && r.tileMap == g.tileMap && r.nextEntityId == g.nextEntityId
    ensures r.player.value.pos == g.player.value.pos
    ensures r.player.value.dungeonLevel == g.player.value.dungeonLevel
    ensures r.state == g.state || r.state == GameOver
    ensures GetEnemyAt(g.enemies, pos).None? ==> r == g
    ensures GetEnemyAt(g.enemies, pos).Some? ==> r == HandleCombat(g, cfg, GetEnemyAt(g.enemies, pos).value)
    ensures IdsFresh(g) ==> IdsFresh(r)
    ensures |g.messages| <= cfg.maxMessages ==> |r.messages| <= cfg.maxMessages
  {
    match GetEnemyAt(g.enemies, pos)
    case Some(i) =>
      CombatKeepsIdsFresh(g, cfg, i);
      HandleCombat(g, cfg, i)
    case None => g
  }

  /** The destination of the move is the down staircase. */
  predicate ReachesStairs(g: Session, dir: Direction)
    requires g.player.Some? && g.tileMap.Some? && Valid(g.tileMap.value)
    requires IsValidPosition(g.tileMap.value, Destination(g, dir).x, Destination(g, dir).y)
  {
    GetTile(g.tileMap.value, Destination(g, dir).x, Destination(g, dir).y).kind == StairsDown
  }

  /** One turn: move unconditionally, fight the first living enemy at the destination, then
      descend if the destination is the down staircase. Without a player or map, nothing. */
  function HandleMovement(g: Session, cfg: Config, dir: Direction, d: LevelDraws): (r: Session)
    requires ValidConfig(cfg) && TurnFits(g, cfg, dir, d)
    ensures g.player.None? || g.tileMap.None? ==> r == g
    ensures r.state == g.state || r.state == GameOver
    ensures g.player.Some? && g.tileMap.Some? ==> r.player.Some?
    ensures g.player.Some? && g.tileMap.Some? && ReachesStairs(g, dir) ==>
      r.player.value.dungeonLevel == g.player.value.dungeonLevel + 1 && r.player.value.pos == StartPosition(cfg)
    ensures g.player.Some? && g.tileMap.Some? && !ReachesStairs(g, dir) ==>
      && r.player.value.dungeonLevel == g.player.value.dungeonLevel
      && r.player.value.pos == Destination(g, dir) && r.tileMap == g.tileMap
    ensures (g.player.Some? && g.tileMap.Some? && !ReachesStairs(g, dir)
             && GetEnemyAt(g.enemies, Destination(g, dir)).None?) ==>
      r == g.(player := Some(Move(g.player.value, dir).0))
    ensures g.player.Some? && g.tileMap.Some? && !ReachesStairs(g, dir) ==> r == MoveAndFight(g, cfg, dir)
    ensures IdsFresh(g) ==> IdsFresh(r)
    ensures |g.messages| <= cfg.maxMessages ==> |r.messages| <= cfg.maxMessages
  {
    if g.player.None? || g.tileMap.None? then g
    else
      var g1 := MoveAndFight(g, cfg, dir);
      if ReachesStairs(g, dir) then NextLevel(g1, cfg, d) else g1
  }

  /** The part of a turn before the staircase check: the move, then any fight at the
      destination. */
  function MoveAndFight(g: Session, cfg: Config, dir: Direction): (r: Session)
    requires g.player.Some?
    ensures r.player.Some? && r.tileMap == g.tileMap && r.nextEntityId == g.nextEntityId
    ensures r.player.value.pos == Destination(g, dir)
    ensures r.player.value.dungeonLevel == g.player.value.dungeonLevel
    ensures r.state == g.state || r.state == GameOver
    ensures GetEnemyAt(g.enemies, Destination(g, dir)).None? ==>
      r == g.(player := Some(Move(g.player.value, dir).0))
    ensures GetEnemyAt(g.enemies, Destination(g, dir)).Some? ==>
      r == HandleCombat(g.(player := Some(Move(g.player.value, dir).0)), cfg,
                        GetEnemyAt(g.enemies, Destination(g, dir)).value)
    ensures IdsFresh(g) ==> IdsFresh(r)
    ensures |g.messages| <= cfg.maxMessages ==> |r.messages| <= cfg.maxMessages
  {
    var p := Move(g.player.value, dir).0;
    Fight(g.(player := Some(p)), cfg, p.pos)
  }

  // ---------------------------------------------------------------------------
  // Session invariants

  /** Entity ids are never reused: every id in play is below the counter, and the enemy list
      is in creation order, so its ids strictly increase along it. */
  predicate IdsFresh(g: Session) {
    && (g.player.Some? ==> g.player.value.id < g.nextEntityId)
    && (forall i :: 0 <= i < |g.enemies| ==> g.enemies[i].id < g.nextEntityId)
    && (forall i :: 0 < i < |g.enemies| ==> g.enemies[i - 1].id < g.enemies[i].id)
  }

  /** Ids that increase from each enemy to the next increase along the whole list, so no two
      enemies share one. */
  lemma {:induction false} IncreasingIdsAreDistinct(es: seq<Enemy>, i: int, j: int)
    requires forall k :: 0 < k < |es| ==> es[k - 1].id < es[k].id
    requires 0 <= i < j < |es|
    ensures es[i].id < es[j].id
    decreases j - i
  {
    if i + 1 < j {
      IncreasingIdsAreDistinct(es, i + 1, j);
    }
  }

  /** A list with a dead enemy has a first dead enemy. */
  lemma {:induction false} FirstDeadExists(es: seq<Enemy>, j: int)
    requires 0 <= j < |es| && Dead(es[j])
    ensures exists i :: FirstDead(es, i)
    decreases j
  {
    if forall k :: 0 <= k < j ==> !Dead(es[k]) {
      assert FirstDead(es, j);
    } else {
      var k :| 0 <= k < j && Dead(es[k]);
      FirstDeadExists(es, k);
    }
  }

  /** Dropping one enemy from a list whose ids increase and stay below `bound` keeps both
      facts: the two neighbours of the dropped enemy become adjacent, and their ids were
      increasing across it. */
  lemma DropKeepsIdsFresh(es: seq<Enemy>, i: int, bound: int)
    requires forall k :: 0 <= k < |es| ==> es[k].id < bound
    requires forall k :: 0 < k < |es| ==> es[k - 1].id < es[k].id
    requires 0 <= i < |es|
    ensures var r := es[..i] + es[i + 1..];
      && (forall k :: 0 <= k < |r| ==> r[k].id < bound)
      && (forall k :: 0 < k < |r| ==> r[k - 1].id < r[k].id)
  {
    var r := es[..i] + es[i + 1..];
    forall k | 0 <= k < |r|
      ensures r[k].id < bound
    {
      assert r[k] == if k < i then es[k] else es[k + 1];
    }
    forall k | 0 < k < |r|
      ensures r[k - 1].id < r[k].id
    {
      if k < i {
        assert r[k - 1] == es[k - 1] && r[k] == es[k];
      } else if k == i {
        assert r[k - 1] == es[i - 1] && r[k] == es[i + 1];
        IncreasingIdsAreDistinct(es, i - 1, i + 1);
      } else {
        assert r[k - 1] == es[k] && r[k] == es[k + 1];
      }
    }
  }

  /** Removing the first corpse keeps ids unique and below the counter. */
  lemma ReapingKeepsIdsFresh(g: Session)
    ensures IdsFresh(g) ==> IdsFresh(g.(enemies := RemoveDeadEnemies(g.enemies)))
  {
    var es := g.enemies;
    if IdsFresh(g) {
      if j :| 0 <= j < |es| && Dead(es[j]) {
        FirstDeadExists(es, j);
        var i :| FirstDead(es, i);
        DropKeepsIdsFresh(es, i, g.nextEntityId);
        assert RemoveDeadEnemies(es) == es[..i] + es[i + 1..];
      }
    }
  }

  /** Appending enemies numbered consecutively from the counter keeps ids unique. */
  lemma AppendKeepsIdsFresh(g: Session, r: Session, base: int)
    requires g.nextEntityId <= base
    requires |g.enemies| <= |r.enemies| && r.enemies[..|g.enemies|] == g.enemies
    requires forall i :: |g.enemies| <= i < |r.enemies| ==> r.enemies[i].id == base + (i - |g.enemies|)
    requires r.nextEntityId == base + (|r.enemies| - |g.enemies|)
    requires r.player.Some? ==>
      r.player.value.id < g.nextEntityId || (g.player.Some? && r.player.value.id == g.player.value.id)
    ensures IdsFresh(g) ==> IdsFresh(r)
  {
  }

  /** Combat changes health, experience and gold but no id. */
  lemma CombatKeepsIdsFresh(g: Session, cfg: Config, i: int)
    requires g.player.Some? && 0 <= i < |g.enemies|
    ensures IdsFresh(g) ==> IdsFresh(HandleCombat(g, cfg, i))
  {
  }

  /** A new game after a shutdown has exactly its own five enemies and welcome line, but the
      floor items left before the shutdown are still there and the ids keep counting up. */
  lemma ShutdownThenNewGame(g: Session, cfg: Config, name: string, d: LevelDraws)
    requires ValidConfig(cfg) && LevelDrawsFit(cfg, d, 5)
    ensures var r := NewGame(Shutdown(g), cfg, name, d);
      && |r.enemies| == 5
      && r.floorItems[..|g.floorItems|] == g.floorItems && |r.floorItems| == |g.floorItems| + 3
      && r.nextEntityId == g.nextEntityId + 6
      && (cfg.maxMessages > 0 ==> |r.messages| == 1)
  {
  }

  /** No movement turn and no update leaves the GameOver state; only `Run` and `NewGame` do. */
  lemma TurnsKeepGameOver(g: Session, cfg: Config, dir: Direction, d: LevelDraws)
    requires ValidConfig(cfg) && TurnFits(g, cfg, dir, d) && g.state == GameOver
    ensures HandleMovement(g, cfg, dir, d).state == GameOver
    ensures Update(g).state == GameOver
  {
  }
}

=== FILE: geometry.dfy ===
/** Coordinates, movement directions and the integer helpers the game rules use. */
module Geometry {

  /** A grid coordinate; `x` is the column (the pair's first), `y` the row (its second). */
  datatype Position = Position(x: int, y: int)

  datatype Direction = North | South | East | West

  function Min(a: int, b: int): int {
    if a < b then a else b
  }

  function Max(a: int, b: int): int {
    if a < b then b else a
  }
}

=== FILE: maps.dfy ===
/** The tile grid: a `height` x `width` array of tiles, indexed `tiles[y][x]`, plus the
    coordinate of the down staircase. */
module Maps {
  import opened Geometry
  import opened Tiles

  datatype Map = Map(width: int, height: int, tiles: seq<seq<Tile>>, stairsDown: Position)

  /** The class invariant: the grid has exactly `height` rows of `width` cells each. */
  predicate Valid(m: Map) {
    && 0 <= m.width && 0 <= m.height
    && |m.tiles| == m.height
    && forall y :: 0 <= y < |m.tiles| ==> |m.tiles[y]| == m.width
  }

  /** Every cell holds the canonical symbol and walkability of its kind. */
  predicate Canonical(m: Map) {
    forall y, x :: 0 <= y < |m.tiles| && 0 <= x < |m.tiles[y]| ==>
      m.tiles[y][x] == CanonicalTile(m.tiles[y][x].kind)
  }

  /** The bounds check. On a well-formed map it admits exactly the coordinates that index a
      cell of the grid. */
  function IsValidPosition(m: Map, x: int, y: int): (r: bool)
    ensures Valid(m) ==> (r <==> 0 <= y < |m.tiles| && 0 <= x < |m.tiles[y]|)
  {
    0 <= x < m.width && 0 <= y < m.height
  }

  /** The unchecked cell read; the bounds requirement stands in for the out-of-range access the
      source does not guard against. On a grid written through `SetTile` the tile read is the
      canonical tile of its kind. */
  function GetTile(m: Map, x: int, y: int): (t: Tile)
    requires Valid(m) && IsValidPosition(m, x, y)
    ensures Canonical(m) ==> t == CanonicalTile(t.kind)
  {
    m.tiles[y][x]
  }

  /** The constructor: a `w` x `h` grid of walls with no staircase recorded yet. */
  function NewMap(w: int, h: int, invalid: Position): (m: Map)
    requires 0 <= w && 0 <= h
    ensures Valid(m) && m.width == w && m.height == h
    ensures m.stairsDown == invalid
    ensures forall y, x :: 0 <= y < h && 0 <= x < w ==> m.tiles[y][x] == CanonicalTile(Wall)
    ensures Canonical(m)
  {
    Map(w, h, seq(h, _ => seq(w, _ => CanonicalTile(Wall))), invalid)
  }

  /** Bounds check first; an off-map coordinate is never walkable, an on-map one is as walkable
      as its tile says. */
  function IsWalkable(m: Map, x: int, y: int): (r: bool)
    requires Valid(m)
    ensures !IsValidPosition(m, x, y) ==> !r
    ensures IsValidPosition(m, x, y) ==> (r <==> GetTile(m, x, y).walkable)
  {
    if !IsValidPosition(m, x, y) then false else m.tiles[y][x].walkable
  }

  /** On a grid written only through `SetTile`, walkability is "on the map and not a wall". */
  lemma WalkableIffNotWall(m: Map, x: int, y: int)
    requires Valid(m) && Canonical(m)
    ensures IsWalkable(m, x, y) <==> IsValidPosition(m, x, y) && GetTile(m, x, y).kind != Wall
  {
  }

  /** Writes the canonical tile of kind `t` at (x, y); an off-map write changes nothing. */
  function SetTile(m: Map, x: int, y: int, t: TileType): (r: Map)
    requires Valid(m)
    ensures Valid(r) && r.width == m.width && r.height == m.height
    ensures r.stairsDown == m.stairsDown
    ensures !IsValidPosition(m, x, y) ==> r == m
    ensures IsValidPosition(m, x, y) ==> r.tiles[y][x] == CanonicalTile(t)
    ensures forall i, j :: 0 <= i < m.height && 0 <= j < m.width && !(i == y && j == x) ==>
      r.tiles[i][j] == m.tiles[i][j]
    ensures Canonical(m) ==> Canonical(r)
  {
    if !IsValidPosition(m, x, y) then m
    else m.(tiles := m.tiles[y := m.tiles[y][x := CanonicalTile(t)]])
  }

  /** Resets every cell to a wall and forgets the staircase; the shape is kept. */
  function Clear(m: Map, invalid: Position): (r: Map)
    ensures r.width == m.width && r.height == m.height
    ensures r.stairsDown == invalid
    ensures |r.tiles| == |m.tiles|
    ensures forall y :: 0 <= y < |m.tiles| ==> |r.tiles[y]| == |m.tiles[y]|
    ensures forall y, x :: 0 <= y < |r.tiles| && 0 <= x < |r.tiles[y]| ==>
      r.tiles[y][x] == CanonicalTile(Wall)
    ensures Valid(m) ==> Valid(r)
  {
    var rows := seq(|m.tiles|, y requires 0 <= y < |m.tiles| => seq(|m.tiles[y]|, _ => CanonicalTile(Wall)));
    m.(tiles := rows, stairsDown := invalid)
  }

  /** Clearing a map yields exactly the map the constructor builds for its dimensions. */
  lemma ClearIsFreshMap(m: Map, invalid: Position)
    requires Valid(m)
    ensures Clear(m, invalid) == NewMap(m.width, m.height, invalid)
  {
  }

  /** Writes to two different cells commute. */
  lemma SetTileCommutes(m: Map, x1: int, y1: int, t1: TileType, x2: int, y2: int, t2: TileType)
    requires Valid(m)
    requires x1 != x2 || y1 != y2
    ensures SetTile(SetTile(m, x1, y1, t1), x2, y2, t2) == SetTile(SetTile(m, x2, y2, t2), x1, y1, t1)
  {
    var a := SetTile(SetTile(m, x1, y1, t1), x2, y2, t2);
    var b := SetTile(SetTile(m, x2, y2, t2), x1, y1, t1);
    forall y | 0 <= y < m.height
      ensures a.tiles[y] == b.tiles[y]
    {
      assert |a.tiles[y]| == |b.tiles[y]|;
    }
  }

  /** A second write to the same cell overrides the first completely. */
  lemma SetTileLastWins(m: Map, x: int, y: int, t1: TileType, t2: TileType)
    requires Valid(m)
    ensures SetTile(SetTile(m, x, y, t1), x, y, t2) == SetTile(m, x, y, t2)
  {
    var a, b := SetTile(SetTile(m, x, y, t1), x, y, t2), SetTile(m, x, y, t2);
    forall i | 0 <= i < m.height
      ensures a.tiles[i] == b.tiles[i]
    {
      assert |a.tiles[i]| == |b.tiles[i]|;
    }
  }
}

=== FILE: messagelog.dfy ===
/** The game's message log: a first-in first-out list that evicts its oldest entry once it
    holds more than a fixed number of messages. */
module MessageLog {

  /** Appends `msg`; if the log then exceeds `limit`, the single oldest entry is dropped. */
  function AddMessage(log: seq<string>, limit: nat, msg: string): (r: seq<string>)
    ensures |log| <= |r| <= |log| + 1
    ensures r == (log + [msg])[|log| + 1 - |r|..]
    ensures |r| == |log| + 1 <==> |log| < limit
    ensures |log| <= limit ==> |r| <= limit
    ensures |r| > 0 ==> r[|r| - 1] == msg
  {
    var pushed := log + [msg];
    if |pushed| > limit then pushed[1..] else pushed
  }

  /** Adds the messages in order. */
  function AddMessages(log: seq<string>, limit: nat, msgs: seq<string>): seq<string>
    decreases |msgs|
  {
    if |msgs| == 0 then log else AddMessages(AddMessage(log, limit, msgs[0]), limit, msgs[1..])
  }

  /** A log that starts within its bound always holds exactly the newest `limit` of all the
      messages ever added (or all of them, while there are fewer), oldest first. */
  lemma {:induction false} KeepsNewest(log: seq<string>, limit: nat, msgs: seq<string>)
    requires |log| <= limit
    ensures var all := log + msgs;
      AddMessages(log, limit, msgs) == all[|all| - if |all| < limit then |all| else limit..]
    decreases |msgs|
  {
    if |msgs| > 0 {
      var all := log + msgs;
      var next := AddMessage(log, limit, msgs[0]);
      KeepsNewest(next, limit, msgs[1..]);
      var all' := next + msgs[1..];
      if |log| < limit {
        assert next == log + [msgs[0]];
        assert all' == all;
      } else {
        assert next == (log + [msgs[0]])[1..];
        assert all' == all[1..];
        assert |all| > limit && |all'| >= limit;
      }
    }
  }

  /** Adding messages to a log within its bound keeps it within the bound, and the last message
      added is the newest entry. */
  lemma AddMessagesBound(log: seq<string>, limit: nat, msgs: seq<string>)
    ensures |log| <= limit ==> |AddMessages(log, limit, msgs)| <= limit
    ensures |log| <= limit && limit > 0 && |msgs| > 0 ==>
      var r := AddMessages(log, limit, msgs);
      |r| > 0 && r[|r| - 1] == msgs[|msgs| - 1]
  {
    if |log| <= limit {
      KeepsNewest(log, limit, msgs);
      var all := log + msgs;
      if limit > 0 && |msgs| > 0 {
        assert all[|all| - 1] == msgs[|msgs| - 1];
      }
    }
  }

  predicate IsDigit(c: char) {
    '0' <= c <= '9'
  }

  /** The value of a string of decimal digits, most significant digit first. */
  function DigitsValue(s: string): int
    decreases |s|
  {
    if |s| == 0 then 0 else 10 * DigitsValue(s[..|s| - 1]) + (s[|s| - 1] as int - '0' as int)
  }

  /** Reads a decimal numeral with an optional leading minus sign. */
  function ParseInt(s: string): int {
    if |s| > 0 && s[0] == '-' then -DigitsValue(s[1..]) else DigitsValue(s)
  }

  /** The decimal text of `n`, as `std::to_string` writes it: a minus sign exactly for a
      negative number, then digits with no leading zero; it reads back as `n`. */
  function IntToString(n: int): (r: string)
    ensures |r| > 0 && (r[0] == '-' <==> n < 0)
    ensures forall i :: (if n < 0 then 1 else 0) <= i < |r| ==> IsDigit(r[i])
    ensures (if n < 0 then 1 else 0) < |r| && (r[if n < 0 then 1 else 0] == '0' ==> n == 0)
    ensures ParseInt(r) == n
  {
    if n < 0 then
      var digits := NatToString(-n);
      assert ("-" + digits)[1..] == digits;
      "-" + digits
    else
      NatToString(n)
  }

  /** The digits of `n` without leading zeros; they read back as `n`. */
  function NatToString(n: nat): (r: string)
    ensures |r| > 0 && forall i :: 0 <= i < |r| ==> IsDigit(r[i])
    ensures r[0] == '0' ==> r == "0"
    ensures DigitsValue(r) == n
    decreases n
  {
    var digit := (n % 10 + '0' as int) as char;
    if n < 10 then
      [digit]
    else
      var prefix := NatToString(n / 10);
      assert (prefix + [digit])[..|prefix|] == prefix;
      prefix + [digit]
  }
}

=== FILE: tiles.dfy ===
/** Tile kinds and the canonical (kind, symbol, walkable) table that map writes use. */
module Tiles {
  datatype TileType = Floor | Wall | Door | StairsUp | StairsDown | Trap

  /** One map cell: its kind, the glyph drawn for it, and whether it can be entered. */
  datatype Tile = Tile(kind: TileType, symbol: char, walkable: bool)

  /** The tile a write of kind `t` stores. Walls are the only blocking kind. */
  function CanonicalTile(t: TileType): (r: Tile)
    ensures r.kind == t
    ensures r.walkable <==> t != Wall
  {
    match t
    case Floor => Tile(Floor, '.', true)
    case Wall => Tile(Wall, '#', false)
    case Door => Tile(Door, '+', true)
    case StairsUp => Tile(StairsUp, '<', true)
    case StairsDown => Tile(StairsDown, '>', true)
    case Trap => Tile(Trap, '^', true)
  }

  /** The six canonical glyphs are pairwise distinct, so a rendered map shows the kind of
      every cell. */
  lemma SymbolsDistinct(t1: TileType, t2: TileType)
    ensures CanonicalTile(t1).symbol == CanonicalTile(t2).symbol ==> t1 == t2
  {
  }
}

=== FILE: wrappers.dfy ===
/** Optional values: the model's stand-in for a null pointer or "nothing found". */
module Wrappers {

  datatype Option<+T> = None | Some(value: T)
}
